=== FILE: README.md ===
# Inventory service: registration and cached item CRUD

A Dafny model of the request handlers of a small inventory REST API
(`inventory/views.py`) and of its `Item` record (`inventory/models.py`).
Stripped of HTTP, the handlers are a sequential state machine over three
pieces of state:

- the user table, a sequence of rows in insertion order (`Identity.User`);
- the item store, a map from id to row, with the id sequence of the table (`Items.ItemsState`);
- the key/value cache, a map from key `item_{id}` to a serialised item.

Each handler is a pure function from a state and a request to a new state and
a response (status code and body):

- `Identity.Register`: refuse a taken username (400), otherwise append one row with the hashed password (201).
- `Items.Create`: validate (400), refuse a taken name (400), otherwise insert under the next id (201); the cache is untouched.
- `Items.Retrieve`: cache-aside read; a hit returns the cached payload; a miss loads the row (404 if absent), serialises it and caches it.
- `Items.Update`: locate (404), validate (400), delete the item's cache key, then write the row (200).
- `Items.Destroy`: locate (404), delete the item's cache key, then delete the row (204).

`Service.Step` dispatches one request and `Service.Run` a sequence of them.
The invariant `Service.SystemInv` holds that usernames are unique, item names
are unique, every stored row satisfies the field constraints, and the cache is
coherent: every cached key is the canonical `item_{id}` of an id in the store
and holds that row's current serialisation. Every handler preserves it, so it
holds after any sequential run, and so a read always returns what the store
holds (`Service.ReadAfterRunMatchesStore`).

The coherence proof rests on `item_{id}` being injective in the id: the
module `Decimal` models Python's decimal rendering of an `int` and its
`int(...)` parse, and proves that parsing a rendering gives back the number.

The module `RawLookup` models `retrieve` with the id as it appears in the
URL, and shows that a padded id (`07`) breaks coherence (see Findings).

## Model

| member | source | states |
|---|---|---|
| `Decimal.ParseRender` | inventory/views.py:66 | Parsing the decimal text of an id gives back that id. |
| `Decimal.RenderInjective` | inventory/views.py:66 | Two different ids never render to the same text. |
| `Items.CacheKey` | inventory/views.py:66 | The key `item_{id}` names exactly the id it was built from, so distinct ids never share a cache key. |
| `Models.Build` | inventory/models.py:8-10 | A row created from a valid payload has the supplied name; its quantity defaults to 0 and its description to null when left out; the row is valid (name 1..255 characters, quantity non-negative). |
| `Models.Merge` | inventory/views.py:83-84 | Under a valid payload, supplied fields replace the row's and omitted fields keep their value; a valid row stays valid. |
| `Models.Serialize` | inventory/views.py:71 | The payload an item serialises to carries its id, its name, its description and its quantity. |
| `Models.SerializeInjective` | inventory/views.py:71 | Two payloads are equal only when they come from the same id and the same row, so a payload determines both. |
| `Models.Str` | inventory/models.py:12-13 | The string form of a valid item is 1 to 255 characters long. |
| `Models.ValidationMatchesModel` | inventory/views.py:83-84 | A payload passes validation exactly when it supplies a name where one is required (create, PUT) and the row it would leave behind satisfies the model's field constraints. |
| `Decimal.Render` | inventory/views.py:66 | An id renders as ASCII digits, after a minus sign when negative; no zero follows the sign and a leading `0` appears only for zero itself, so the text is canonical. |
| `Decimal.Parse` | inventory/views.py:70 | Text is a number exactly when it is a non-empty run of ASCII digits, optionally after one sign; an unsigned or `+`-signed run denotes its decimal value and a `-`-signed run its negation, leading zeros allowed (`07`, `+7` and `-07` all parse). |
| `Identity.Taken` | inventory/views.py:25 | The existence check is true exactly when some row has that username. |
| `Identity.RegisterAsWritten` | inventory/views.py:20-37 | A taken username gives 400 "Username already exists" and no change; a missing username or email (with the username not taken) is a server error with the table unchanged; otherwise exactly one row is appended with the hashed password and 201 is returned. |
| `Identity.Register` | inventory/views.py:20-37 | As above with the email optional: a free username appends exactly one row (email empty when absent) with 201; a taken one gives 400 and no change; a missing username is a server error with no change. |
| `Identity.RegisterKeepsUsernamesUnique` | inventory/views.py:25-37 | Registration keeps usernames unique, and it succeeds exactly when the table grows by one row. |
| `Identity.RegisterAsWrittenKeepsUsernamesUnique` | inventory/views.py:25-37 | The handler as written keeps usernames unique, and every response other than 201 leaves the table unchanged. |
| `Identity.RegisterTwiceRefused` | inventory/views.py:25-29 | Registering a free username twice: the first returns 201, the second 400 "Username already exists", and only one row is added. |
| `Identity.RegisterWithoutEmailFails` | inventory/views.py:23-33 | As written, registering a free username without an email fails with a server error and adds no row; the corrected handler accepts it. |
| `Items.Create` | inventory/views.py:45-62 | An invalid payload gives 400 and no change; a taken name gives 400 "Item already exists" and no change; otherwise exactly one row is added under the next id, namely the row the payload builds (supplied fields, quantity 0 and description null when omitted), with the other rows and the whole cache unchanged, and 201 returns that row's serialisation. |
| `Items.Retrieve` | inventory/views.py:64-78 | A read never writes the store; a hit returns the cached payload with no change; a miss on an absent id is 404 with the cache unchanged; a miss on a present id caches its serialisation under its key and returns it. |
| `Items.Update` | inventory/views.py:80-93 | An absent id gives 404 and a failed validation 400, both with no change; otherwise only the key `item_{id}` is removed from the cache and the other rows are unchanged; the write succeeds exactly when no other row has the new name, and then stores and returns the merged row; when another row has the new name the response is a server error, the store is unchanged and only the item's cache key is gone. |
| `Items.Destroy` | inventory/views.py:95-104 | An absent id gives 404 and no change; otherwise 204 "item deleted", exactly that row and that cache key are removed, and every other row and cache entry is unchanged. |
| `Items.CachedItemsMatchStore` | inventory/views.py:66-72 | In a coherent cache, an entry under `item_{id}` means the id is in the store and the entry is its current serialisation. |
| `Items.WriteKeepsNamesUnique` | inventory/models.py:8 | Writing a row whose name no other row has keeps names unique. |
| `Items.CreatePreservesInv` | inventory/views.py:49-62 | Create keeps names unique and the cache coherent; a success uses an id not in the store and adds exactly one row. |
| `Items.RetrievePreservesInv` | inventory/views.py:66-72 | Caching on a miss keeps the cache coherent. |
| `Items.UpdatePreservesInv` | inventory/views.py:82-90 | Update, successful or refused, keeps names unique and the cache coherent. |
| `Items.DestroyPreservesInv` | inventory/views.py:96-102 | Delete keeps the cache coherent. |
| `ItemScenarios.RetrieveAgreesWithStore` | inventory/views.py:66-78 | With a coherent cache a read returns the store's serialisation of the row; an unknown id is 404 with no state change. |
| `ItemScenarios.RetrieveTwiceIsHit` | inventory/views.py:68-78 | After a successful read the key is cached, and an immediate second read returns the identical response with no state change. |
| `ItemScenarios.CreateThenRetrieve` | inventory/views.py:57-72 | A just-created item is not cached, and reading it returns the payload create returned. |
| `ItemScenarios.CreateTwiceRefused` | inventory/views.py:49-62 | After a successful create, a second create with the same name is refused with no state change, and the store holds exactly one row with that name. |
| `ItemScenarios.UpdateThenRetrieveFresh` | inventory/views.py:86-90 | After a successful update the next read returns the updated row, not a stale cached copy. |
| `ItemScenarios.QuantityOnlyPatch` | inventory/views.py:81-90 | A PATCH supplying only a non-negative quantity succeeds and changes only the quantity. |
| `ItemScenarios.DestroyThenRetrieveNotFound` | inventory/views.py:96-104 | After a delete the item's key is absent from the cache and reading that id is 404 with no state change. |
| `ItemScenarios.StrIdentifiesStoredItem` | inventory/models.py:8-13 | In a valid store two rows with the same string form (the name) are the same row. |
| `Service.Step` | inventory/views.py:16-104 | Registration changes only the user table; item requests change only the items and cache. |
| `Service.StepPreservesInv` | inventory/views.py:20-104 | Every request keeps usernames unique, item names unique and the cache coherent. |
| `Service.RunPreservesInv` | inventory/views.py:20-104 | The invariant holds after any sequential run of requests. |
| `Service.ReadAfterRunMatchesStore` | inventory/views.py:64-78 | After any run, reading an id returns the store's current row, or 404 with no change when there is none. |
| `Service.ClientErrorLeavesStateUnchanged` | inventory/views.py:25-104 | Every 400 or 404 response leaves users, items and cache exactly as they were. |
| `Service.ServerErrorKeepsRows` | inventory/views.py:86-90 | A server error changes no user and no row; the cache can only lose entries. |
| `RawLookup.RetrieveAsWritten` | inventory/views.py:64-78 | The read keyed by `item_` plus the URL segment verbatim: a hit returns the cached payload; a non-number is a server error and a missing row a 404, both with no change; otherwise the row is cached under that verbatim key. |
| `RawLookup.RetrieveByPath` | inventory/views.py:64-72 | The corrected read: parse the URL segment and read by the looked-up id; a non-number is a server error with no change. |
| `RawLookup.CanonicalPathUnchanged` | inventory/views.py:65-66 | On the canonical spelling of an id the corrected read behaves exactly like `RawLookup.RetrieveAsWritten`. |
| `RawLookup.RetrieveByPathAgreesWithStore` | inventory/views.py:64-78 | The corrected read keeps the cache coherent and returns the store's current row. |
| `RawLookup.PaddedIdServesStaleItem` | inventory/views.py:65-87 | From a coherent state, reading `07`, patching item 7 to quantity 5 and reading `07` again returns the old quantity-0 payload, and the cache is no longer coherent. |

## Findings

| source | as written | input that shows it | evidently intended | confidence | as-written member | corrected member |
|---|---|---|---|---|---|---|
| inventory/views.py:65-66 | `retrieve` builds the cache key from the URL's id segment verbatim, while `update` and `destroy` (lines 86, 98) build it from the row's id | GET `/api/items/07/`, then PATCH `/api/items/7/` with quantity 5, then GET `/api/items/07/` | one cache key per row, so that invalidation reaches every cached copy | medium, not executed | `RawLookup.PaddedIdServesStaleItem` | `RawLookup.RetrieveByPathAgreesWithStore` |
| inventory/views.py:23-33 | an absent email reaches `User.objects.create` as `None`, and the email column of Django's user table is NOT NULL | POST `/api/register/` with a free username and no email | email optional, stored empty when absent | medium, not executed | `Identity.RegisterWithoutEmailFails` | `Identity.Register` |

`Service` uses the corrected members: item reads go through `Items.Retrieve`
(keyed by the looked-up id) and registration through `Identity.Register`.

## Left out

- URL routing and the JWT login and token refresh endpoints (inventory/urls.py): framework dispatch and a token library.
- Password hashing: `make_password` is salted and random; it is modelled as `Identity.Hashed(password)`, a value determined by the password alone, so only "the stored value is the hash of what was supplied" is modelled, not the salt.
- inventory/serializers.py is not part of this model. Validation is modelled as the field constraints of inventory/models.py: the name is required on create and PUT, non-blank and at most 255 characters; the quantity is non-negative. The merge keeps omitted fields for both PUT and PATCH, as a default model serializer does. Trimming of whitespace, the rejection of NUL characters (U+0000) in text fields, type coercion of non-integer input and unknown fields are not modelled.
- If the serializer carries a unique validator for the name (as a default model serializer would), a duplicate name is refused at validation rather than by the view's check: for create both are 400 with no change; for update that would be a 400 before the cache delete, where the model has the database's unique constraint refuse the write after the delete (500).
- The database's upper bound on `quantity` (the integer column's range) is not modelled; quantities are unbounded integers.
- Logging, response headers (the `Location` header on create) and the exact text of framework error bodies.
- Concurrency: the race between the name check and the insert, and reads racing invalidations. The model is sequential.
- Cache TTL and eviction. Eviction only removes entries, which cannot break coherence, but it is not modelled.
- The falsy test on the cached value (views.py:69): the cache lookup is a present/absent test. Serialised items are never empty, so this is the same.
- `Decimal.Parse`: Python's `int(...)` also accepts surrounding whitespace, `_` digit separators and every Unicode decimal digit (fullwidth `７`, Arabic-Indic `٧`, ...); the model reads only ASCII digits with an optional sign and treats such text as a non-number.
- `RawLookup.RetrieveAsWritten`: on a path segment that Python reads as a number but the model does not (`７`, ` 7`, `7_0`), the model answers a server error, while the source serves the item and caches it under yet another non-canonical key, the same defect as the padded `07`.
- `Service.Step`: registration is dispatched to the corrected `Identity.Register`, so the run lemmas describe the service with the email made optional. The handler as written also keeps usernames unique and changes nothing except on 201 (`Identity.RegisterAsWrittenKeepsUsernamesUnique`), so the invariant holds for it as well. Item reads in a run take the looked-up integer id, so padded or signed path segments (`07`, `+7`) are outside `Service.RunPreservesInv` and `Service.ReadAfterRunMatchesStore`; `RawLookup` covers them.
- `Models.Str`: the contract states the length bound of the string form; that the string form is the item's name is its definition, used by `Models.Serialize` and `ItemScenarios.StrIdentifiesStoredItem`.
- A non-numeric id on `update` or `destroy` is turned into a 404 by the framework's lookup; these handlers take the looked-up integer id, so that case is not modelled. On `retrieve` the plain Django lookup raises instead, modelled as a server error.
- A PUT that omits `description` keeps the stored value, because an omitted optional field is absent from the validated data; validation (views.py:84) runs before the cache delete (views.py:87).

=== FILE: decimal.dfy ===
/**
 Decimal text for integers, as produced by Python's f-string interpolation of
 an `int` and as read back by `int(...)` when Django coerces a lookup value.
 The cache key of an item is built from this text, so the model needs to know
 that rendering is injective.
 */
module Decimal {
  import opened Options

  predicate IsDigit(c: char) {
    '0' <= c <= '9'
  }

  predicate AllDigits(s: string) {
    forall i :: 0 <= i < |s| ==> IsDigit(s[i])
  }

  function DigitChar(d: nat): (c: char)
    requires d < 10
    ensures IsDigit(c)
  {
    "0123456789"[d]
  }

  function DigitValue(c: char): (d: nat)
    requires IsDigit(c)
    ensures d < 10
  {
    (c as int) - ('0' as int)
  }

  /** Decimal digits of a natural number, most significant first, no leading zeros. */
  function RenderNat(n: nat): (s: string)
    ensures 1 <= |s|
    ensures AllDigits(s)
    ensures n < 10 <==> |s| == 1
    ensures 0 < n ==> s[0] != '0'
    decreases n
  {
    if n < 10 then [DigitChar(n)] else RenderNat(n / 10) + [DigitChar(n % 10)]
  }

  /** The number a run of digits, possibly empty, denotes (leading zeros allowed). */
  function DigitsValue(s: string): nat
    requires AllDigits(s)
  {
    if |s| == 0 then 0 else DigitsValue(s[..|s| - 1]) * 10 + DigitValue(s[|s| - 1])
  }

  /**
   `f"{n}"` for a Python int: ASCII digits with no leading zero, after a
   minus sign for a negative number. Only zero itself renders as `0`.
   */
  function Render(n: int): (s: string)
    ensures 1 <= |s|
    ensures 0 <= n ==> AllDigits(s)
    ensures n < 0 ==> 2 <= |s| && s[0] == '-' && AllDigits(s[1..]) && s[1] != '0'
    ensures s[0] == '0' <==> n == 0
    ensures n == 0 ==> s == "0"
  {
    if n < 0 then "-" + RenderNat(-n) else RenderNat(n)
  }

  /**
   `int(s)` restricted to an optional sign followed by digits; any other text
   is treated as not a number.
   */
  function Parse(s: string): (r: Option<int>)
    ensures r.Some? <==> (1 <= |s| && AllDigits(s)) || (2 <= |s| && (s[0] == '-' || s[0] == '+') && AllDigits(s[1..]))
    ensures AllDigits(s) && 1 <= |s| ==> r == Some(DigitsValue(s))
    ensures 2 <= |s| && s[0] == '-' && AllDigits(s[1..]) ==> r == Some(0 - DigitsValue(s[1..]))
    ensures 2 <= |s| && s[0] == '+' && AllDigits(s[1..]) ==> r == Some(DigitsValue(s[1..]))
  {
    if |s| >= 2 && s[0] == '-' && AllDigits(s[1..]) then Some(0 - DigitsValue(s[1..]))
    else if |s| >= 2 && s[0] == '+' && AllDigits(s[1..]) then Some(DigitsValue(s[1..]))
    else if |s| >= 1 && AllDigits(s) then Some(DigitsValue(s))
    else None
  }

  lemma {:induction false} DigitsValueOfRenderNat(n: nat)
    ensures DigitsValue(RenderNat(n)) == n
    decreases n
  {
    if n < 10 {
      assert RenderNat(n) == [DigitChar(n)];
      assert RenderNat(n)[..0] == [];
    } else {
      var s := RenderNat(n);
      assert s == RenderNat(n / 10) + [DigitChar(n % 10)];
      assert s[..|s| - 1] == RenderNat(n / 10);
      DigitsValueOfRenderNat(n / 10);
    }
  }

  lemma ParseRenderNat(n: nat)
    ensures Parse(RenderNat(n)) == Some(n)
  {
    var s := RenderNat(n);
    assert IsDigit(s[0]);
    DigitsValueOfRenderNat(n);
  }

  lemma ParseRenderNegative(n: int)
    requires n < 0
    ensures Parse(Render(n)) == Some(n)
  {
    var d := RenderNat(-n);
    var s := "-" + d;
    assert s[0] == '-';
    assert s[1..] == d;
    DigitsValueOfRenderNat(-n);
  }

  /** Reading back rendered text recovers the number. */
  lemma ParseRender(n: int)
    ensures Parse(Render(n)) == Some(n)
  {
    if n < 0 {
      ParseRenderNegative(n);
    } else {
      ParseRenderNat(n);
    }
  }

  /** Distinct numbers render to distinct text. */
  lemma RenderInjective(a: int, b: int)
    requires Render(a) == Render(b)
    ensures a == b
  {
    ParseRender(a);
    ParseRender(b);
  }
}

=== FILE: identity.dfy ===
/**
 User registration (`RegisterViewSet.register`). The user table is the
 sequence of rows in insertion order; usernames are unique by construction of
 this handler, not by the representation.
 */
module Identity {
  import opened Options
  import opened Responses

  /**
   `make_password(raw)`. The hash stands for the stored value; the model
   records only which password it was made from. The real hash is salted, so
   two hashes of one password differ; modelling it as a function of the
   password alone is a simplification.
   */
  datatype Password = Hashed(Option<string>)

  datatype User = User(username: string, password: Password, email: string)

  /** `User.objects.filter(username=u).exists()`, as a scan of the table. */
  function Taken(users: seq<User>, u: string): (b: bool)
    ensures b <==> exists i :: 0 <= i < |users| && users[i].username == u
  {
    if |users| == 0 then false
    else users[|users| - 1].username == u || Taken(users[..|users| - 1], u)
  }

  predicate UsernamesUnique(users: seq<User>) {
    forall i, j :: 0 <= i < j < |users| ==> users[i].username != users[j].username
  }

  /**
   The handler as written. An absent username or email reaches
   `User.objects.create` as `None`; both columns are NOT NULL in Django's user
   table, so the insert raises and the request ends in a server error with the
   table unchanged.
   */
  function RegisterAsWritten(users: seq<User>, username: Option<string>, password: Option<string>,
                             email: Option<string>): (r: (seq<User>, Response))
    ensures username.Some? && Taken(users, username.value) ==>
              r == (users, Response(HttpBadRequest, Error(UsernameExistsMessage)))
    ensures (username.None? || email.None?) ==> r.0 == users && r.1.status != HttpCreated
    ensures !(username.Some? && Taken(users, username.value)) && (username.None? || email.None?) ==>
              r == (users, ServerError)
    ensures username.Some? && email.Some? && !Taken(users, username.value) ==>
              && r.0 == users + [User(username.value, Hashed(password), email.value)]
              && r.1 == Response(HttpCreated, Message(UserCreatedMessage))
  {
    if username.Some? && Taken(users, username.value) then
      (users, Response(HttpBadRequest, Error(UsernameExistsMessage)))
    else if username.None? || email.None? then
      (users, ServerError)
    else
      (users + [User(username.value, Hashed(password), email.value)], Response(HttpCreated, Message(UserCreatedMessage)))
  }

  /**
   Registration with the email optional, as intended: an absent email is
   stored as the empty string (the user table's "no email" value).
   */
  function Register(users: seq<User>, username: Option<string>, password: Option<string>,
                    email: Option<string>): (r: (seq<User>, Response))
    ensures username.None? ==> r == (users, ServerError)
    ensures username.Some? && Taken(users, username.value) ==>
              r == (users, Response(HttpBadRequest, Error(UsernameExistsMessage)))
    ensures username.Some? && !Taken(users, username.value) ==>
              && r.0 == users + [User(username.value, Hashed(password), email.GetOr(""))]
              && r.1 == Response(HttpCreated, Message(UserCreatedMessage))
  {
    match username
    case None => (users, ServerError)
    case Some(u) =>
      if Taken(users, u) then (users, Response(HttpBadRequest, Error(UsernameExistsMessage)))
      else (users + [User(u, Hashed(password), email.GetOr(""))], Response(HttpCreated, Message(UserCreatedMessage)))
  }

  /** Registering keeps usernames unique; a success adds exactly one row, for that username. */
  lemma RegisterKeepsUsernamesUnique(users: seq<User>, username: Option<string>, password: Option<string>,
                                     email: Option<string>)
    requires UsernamesUnique(users)
    ensures UsernamesUnique(Register(users, username, password, email).0)
    ensures Register(users, username, password, email).1.status == HttpCreated <==>
              |Register(users, username, password, email).0| == |users| + 1
  {
    var r := Register(users, username, password, email);
    if username.Some? && !Taken(users, username.value) {
      var users' := r.0;
      forall i, j | 0 <= i < j < |users'|
        ensures users'[i].username != users'[j].username
      {
        if j == |users| {
          assert users'[i] == users[i];
        } else {
          assert users'[i] == users[i] && users'[j] == users[j];
        }
      }
    }
  }

  /** The handler as written also keeps usernames unique, and it changes the table only when it answers 201. */
  lemma RegisterAsWrittenKeepsUsernamesUnique(users: seq<User>, username: Option<string>, password: Option<string>,
                                              email: Option<string>)
    requires UsernamesUnique(users)
    ensures UsernamesUnique(RegisterAsWritten(users, username, password, email).0)
    ensures RegisterAsWritten(users, username, password, email).1.status != HttpCreated ==>
              RegisterAsWritten(users, username, password, email).0 == users
  {
    if username.Some? && email.Some? && !Taken(users, username.value) {
      RegisterKeepsUsernamesUnique(users, username, password, email);
      assert RegisterAsWritten(users, username, password, email).0 == Register(users, username, password, email).0;
    }
  }

  /** A second registration of the same username is refused and adds no row. */
  lemma RegisterTwiceRefused(users: seq<User>, u: string, p1: Option<string>, e1: Option<string>,
                             p2: Option<string>, e2: Option<string>)
    requires !Taken(users, u)
    ensures var (users1, r1) := Register(users, Some(u), p1, e1);
            var (users2, r2) := Register(users1, Some(u), p2, e2);
            && r1.status == HttpCreated
            && r2 == Response(HttpBadRequest, Error(UsernameExistsMessage))
            && users2 == users1
            && |users2| == |users| + 1
  {
    var (users1, r1) := Register(users, Some(u), p1, e1);
    assert users1[|users|].username == u;
  }

  /** The table as written refuses every registration that omits the email. */
  lemma RegisterWithoutEmailFails(users: seq<User>, u: string, password: Option<string>)
    requires !Taken(users, u)
    ensures RegisterAsWritten(users, Some(u), password, None) == (users, ServerError)
    ensures Register(users, Some(u), password, None).1.status == HttpCreated
  {
  }
}

=== FILE: item_scenarios.dfy ===
/**
 Properties that relate several item requests: what a client observes when
 one request follows another.
 */
module ItemScenarios {
  import opened Options
  import opened Models
  import opened Responses
  import opened Items

  /**
   With a coherent cache, a read returns exactly what reading the store
   directly would: the cache is invisible to clients. An unknown id is a 404
   and caches nothing.
   */
  lemma RetrieveAgreesWithStore(st: ItemsState, id: int)
    requires Inv(st)
    ensures id in st.store ==> Retrieve(st, id).1 == Response(HttpOk, ItemData(Serialize(id, st.store[id])))
    ensures id !in st.store ==> Retrieve(st, id) == (st, NotFound)
  {
    if CacheKey(id) in st.cache {
      CachedItemsMatchStore(st, id);
    }
  }

  /** An immediate second read is a hit that returns the identical payload and changes nothing. */
  lemma RetrieveTwiceIsHit(st: ItemsState, id: int)
    ensures var (st1, r1) := Retrieve(st, id);
            && (r1.status == HttpOk ==> CacheKey(id) in st1.cache)
            && Retrieve(st1, id) == (st1, r1)
  {
  }

  /** Reading a just-created item misses the cache, reads the store and returns what create returned. */
  lemma CreateThenRetrieve(st: ItemsState, f: Fields)
    requires Inv(st)
    requires Create(st, f).1.status == HttpCreated
    ensures var (st1, r1) := Create(st, f);
            && CacheKey(st.nextId) !in st1.cache
            && Retrieve(st1, st.nextId).1 == Response(HttpOk, r1.body)
  {
    var (st1, r1) := Create(st, f);
    if CacheKey(st.nextId) in st.cache {
      CachedItemsMatchStore(st, st.nextId);
      assert false;
    }
  }

  /** Creating the same name twice: the second is refused and the store keeps exactly one row with that name. */
  lemma CreateTwiceRefused(st: ItemsState, f: Fields, g: Fields)
    requires Inv(st)
    requires Create(st, f).1.status == HttpCreated
    requires g.name == f.name
    ensures var st1 := Create(st, f).0;
            var (st2, r2) := Create(st1, g);
            && st2 == st1
            && (r2 == Invalid || r2 == Response(HttpBadRequest, Error(ItemExistsMessage)))
            && forall id :: id in st2.store && st2.store[id].name == f.name.value ==> id == st.nextId
  {
    var st1 := Create(st, f).0;
    CreatePreservesInv(st, f);
    assert st1.store[st.nextId].name == f.name.value;
  }

  /** After a successful update the next read sees the new row, never a stale cached copy. */
  lemma UpdateThenRetrieveFresh(st: ItemsState, id: int, f: Fields, partial: bool)
    requires Update(st, id, f, partial).1.status == HttpOk
    ensures var st1 := Update(st, id, f, partial).0;
            Retrieve(st1, id).1 == Response(HttpOk, ItemData(Serialize(id, Merge(st.store[id], f))))
  {
  }

  /** A PATCH that supplies only a valid quantity succeeds and leaves name and description as they were. */
  lemma QuantityOnlyPatch(st: ItemsState, id: int, q: int)
    requires Inv(st)
    requires id in st.store
    requires 0 <= q
    ensures var (st1, r) := Update(st, id, Fields(None, None, Some(q)), true);
            && r.status == HttpOk
            && st1.store[id] == st.store[id].(quantity := q)
  {
    var it := Merge(st.store[id], Fields(None, None, Some(q)));
    assert it.name == st.store[id].name;
    assert !NameTakenByOther(st.store, it.name, id);
  }

  /** After a delete the item's cache key is gone and reading that id is a 404 that caches nothing. */
  lemma DestroyThenRetrieveNotFound(st: ItemsState, id: int)
    requires id in st.store
    ensures var st1 := Destroy(st, id).0;
            && CacheKey(id) !in st1.cache
            && Retrieve(st1, id) == (st1, NotFound)
  {
  }

  /** In a valid store an item's string form identifies it. */
  lemma StrIdentifiesStoredItem(st: ItemsState, a: int, b: int)
    requires Inv(st)
    requires a in st.store && b in st.store
    requires Str(st.store[a]) == Str(st.store[b])
    ensures a == b
  {
  }
}

=== FILE: items.dfy ===
/**
 The item handlers of `ItemViewSet`: create, retrieve (cache-aside), update
 and destroy, as pure transitions over the item store, the key/value cache
 and the store's id sequence.
 */
module Items {
  import opened Options
  import opened Decimal
  import opened Models
  import opened Responses

  /**
   `store` maps an id to its row; `cache` is the key/value cache; `nextId` is
   the next value of the table's auto-increment sequence (ids are never reused).
   */
  datatype ItemsState = ItemsState(store: map<int, Item>, cache: map<string, Serialized>, nextId: int)

  const KeyPrefix: string := "item_"

  /** The id a cache key names, if it has the form `item_<int>`. */
  function KeyId(k: string): Option<int> {
    if |KeyPrefix| <= |k| && k[..|KeyPrefix|] == KeyPrefix then Parse(k[|KeyPrefix|..]) else None
  }

  /** `f"item_{id}"`: the key names exactly the id it was built from, so distinct ids never share a key. */
  function CacheKey(id: int): (k: string)
    ensures KeyId(k) == Some(id)
  {
    var k := KeyPrefix + Render(id);
    assert k[..|KeyPrefix|] == KeyPrefix;
    assert k[|KeyPrefix|..] == Render(id);
    ParseRender(id);
    k
  }

  /** `Item.objects.filter(name=name).exists()`. */
  predicate NameTaken(store: map<int, Item>, name: string) {
    exists id :: id in store && store[id].name == name
  }

  /** Some row other than `self` already has this name. */
  predicate NameTakenByOther(store: map<int, Item>, name: string, self: int) {
    exists id :: id in store && id != self && store[id].name == name
  }

  predicate NamesUnique(store: map<int, Item>) {
    forall a, b :: a in store && b in store && store[a].name == store[b].name ==> a == b
  }

  /**
   A cache entry is coherent when its key is the canonical key of an id in
   the store and its value is that row's current serialisation.
   */
  predicate EntryCoherent(st: ItemsState, k: string)
    requires k in st.cache
  {
    && KeyId(k).Some?
    && CacheKey(KeyId(k).value) == k
    && KeyId(k).value in st.store
    && st.cache[k] == Serialize(KeyId(k).value, st.store[KeyId(k).value])
  }

  predicate Coherent(st: ItemsState) {
    forall k :: k in st.cache ==> EntryCoherent(st, k)
  }

  /** Every stored row is valid and below the sequence, names are unique, and the cache is coherent. */
  predicate Inv(st: ItemsState) {
    && 1 <= st.nextId
    && (forall id :: id in st.store ==> 1 <= id < st.nextId && ItemValid(st.store[id]))
    && NamesUnique(st.store)
    && Coherent(st)
  }

  /**
   `create`: validate, refuse a taken name, otherwise insert under the next
   id. The cache is never touched.
   */
  function Create(st: ItemsState, f: Fields): (r: (ItemsState, Response))
    ensures !FieldsValid(f, false) ==> r == (st, Invalid)
    ensures FieldsValid(f, false) && NameTaken(st.store, f.name.value) ==>
              r == (st, Response(HttpBadRequest, Error(ItemExistsMessage)))
    ensures FieldsValid(f, false) && !NameTaken(st.store, f.name.value) ==>
              && r.0.cache == st.cache
              && r.0.store.Keys == st.store.Keys + {st.nextId}
              && (forall id :: id in st.store && id != st.nextId ==> r.0.store[id] == st.store[id])
              && r.0.store[st.nextId] == Build(f)
              && st.nextId < r.0.nextId
              && r.1 == Response(HttpCreated, ItemData(Serialize(st.nextId, r.0.store[st.nextId])))
  {
    if !FieldsValid(f, false) then (st, Invalid)
    else if NameTaken(st.store, f.name.value) then (st, Response(HttpBadRequest, Error(ItemExistsMessage)))
    else
      var it := Build(f);
      (ItemsState(st.store[st.nextId := it], st.cache, st.nextId + 1),
       Response(HttpCreated, ItemData(Serialize(st.nextId, it))))
  }

  /**
   `retrieve`: cache-aside read. A hit returns the cached payload unchanged; a
   miss loads the row (404 if absent, before anything is cached), serialises
   it and caches it under the item's key.
   */
  function Retrieve(st: ItemsState, id: int): (r: (ItemsState, Response))
    ensures r.0.store == st.store && r.0.nextId == st.nextId
    ensures CacheKey(id) in st.cache ==> r == (st, Response(HttpOk, ItemData(st.cache[CacheKey(id)])))
    ensures CacheKey(id) !in st.cache && id !in st.store ==> r == (st, NotFound)
    ensures CacheKey(id) !in st.cache && id in st.store ==>
              && r.0.cache == st.cache[CacheKey(id) := Serialize(id, st.store[id])]
              && r.1 == Response(HttpOk, ItemData(Serialize(id, st.store[id])))
  {
    var key := CacheKey(id);
    if key in st.cache then (st, Response(HttpOk, ItemData(st.cache[key])))
    else if id !in st.store then (st, NotFound)
    else
      var data := Serialize(id, st.store[id]);
      (st.(cache := st.cache[key := data]), Response(HttpOk, ItemData(data)))
  }

  /**
   `update` (PUT when `partial` is false, PATCH when true): locate (404),
   validate (400), delete the item's cache key, then write the row. A rename
   onto another row's name passes validation but is refused by the table's
   unique constraint at the write, after the cache key is already gone.
   */
  function Update(st: ItemsState, id: int, f: Fields, partial: bool): (r: (ItemsState, Response))
    ensures r.0.nextId == st.nextId
    ensures id !in st.store ==> r == (st, NotFound)
    ensures id in st.store && !FieldsValid(f, partial) ==> r == (st, Invalid)
    ensures id in st.store && FieldsValid(f, partial) ==>
              && r.0.cache == st.cache - {CacheKey(id)}
              && r.0.store.Keys == st.store.Keys
              && (forall j :: j in st.store && j != id ==> r.0.store[j] == st.store[j])
    ensures id in st.store && FieldsValid(f, partial) && r.1.status == HttpOk ==>
              && r.0.store[id] == Merge(st.store[id], f)
              && r.1 == Response(HttpOk, ItemData(Serialize(id, r.0.store[id])))
    ensures id in st.store && FieldsValid(f, partial) ==>
              (r.1.status == HttpOk <==> !NameTakenByOther(st.store, Merge(st.store[id], f).name, id))
    ensures id in st.store && FieldsValid(f, partial) && NameTakenByOther(st.store, Merge(st.store[id], f).name, id) ==>
              r == (st.(cache := st.cache - {CacheKey(id)}), ServerError)
    ensures r.1.status == HttpServerError ==> r.0.store == st.store
  {
    if id !in st.store then (st, NotFound)
    else if !FieldsValid(f, partial) then (st, Invalid)
    else
      var cache' := st.cache - {CacheKey(id)};
      var it := Merge(st.store[id], f);
      if NameTakenByOther(st.store, it.name, id) then (st.(cache := cache'), ServerError)
      else (st.(store := st.store[id := it], cache := cache'), Response(HttpOk, ItemData(Serialize(id, it))))
  }

  /** `destroy`: locate (404), delete the item's cache key, then delete the row. */
  function Destroy(st: ItemsState, id: int): (r: (ItemsState, Response))
    ensures r.0.nextId == st.nextId
    ensures id !in st.store ==> r == (st, NotFound)
    ensures id in st.store ==>
              && r.1 == Response(HttpNoContent, Message(ItemDeletedMessage))
              && r.0.store.Keys == st.store.Keys - {id}
              && (forall j :: j in r.0.store ==> r.0.store[j] == st.store[j])
              && r.0.cache.Keys == st.cache.Keys - {CacheKey(id)}
              && (forall k :: k in r.0.cache ==> r.0.cache[k] == st.cache[k])
  {
    if id !in st.store then (st, NotFound)
    else (st.(store := st.store - {id}, cache := st.cache - {CacheKey(id)}),
          Response(HttpNoContent, Message(ItemDeletedMessage)))
  }

  // ---------------------------------------------------------------------------
  // The invariant is preserved by every transition.
  // ---------------------------------------------------------------------------

  /** A coherent cache holds, under each item's own key, that item's current serialisation. */
  lemma CachedItemsMatchStore(st: ItemsState, id: int)
    requires Coherent(st)
    requires CacheKey(id) in st.cache
    ensures id in st.store
    ensures st.cache[CacheKey(id)] == Serialize(id, st.store[id])
  {
    assert EntryCoherent(st, CacheKey(id));
  }

  /** Writing a row whose name no other row has keeps names unique. */
  lemma WriteKeepsNamesUnique(store: map<int, Item>, id: int, it: Item)
    requires NamesUnique(store)
    requires forall b :: b in store && b != id ==> store[b].name != it.name
    ensures NamesUnique(store[id := it])
  {
    var store' := store[id := it];
    forall a, b | a in store' && b in store' && store'[a].name == store'[b].name
      ensures a == b
    {
      if a != id && b != id {
        assert store'[a] == store[a] && store'[b] == store[b];
      }
    }
  }

  /** Inserting a valid row with a free name under the next id keeps the invariant and adds one row. */
  lemma InsertKeepsInv(st: ItemsState, it: Item)
    requires Inv(st)
    requires ItemValid(it)
    requires forall b :: b in st.store ==> st.store[b].name != it.name
    ensures st.nextId !in st.store
    ensures Inv(ItemsState(st.store[st.nextId := it], st.cache, st.nextId + 1))
    ensures |st.store[st.nextId := it]| == |st.store| + 1
  {
    var st' := ItemsState(st.store[st.nextId := it], st.cache, st.nextId + 1);
    WriteKeepsNamesUnique(st.store, st.nextId, it);
    forall k | k in st'.cache
      ensures EntryCoherent(st', k)
    {
      assert EntryCoherent(st, k);
    }
  }

  /** Create keeps names unique and the cache coherent, and adds exactly one row under a fresh id. */
  lemma CreatePreservesInv(st: ItemsState, f: Fields)
    requires Inv(st)
    ensures Inv(Create(st, f).0)
    ensures Create(st, f).1.status == HttpCreated ==>
              st.nextId !in st.store && |Create(st, f).0.store| == |st.store| + 1
  {
    if FieldsValid(f, false) && !NameTaken(st.store, f.name.value) {
      var it := Build(f);
      assert Create(st, f).0 == ItemsState(st.store[st.nextId := it], st.cache, st.nextId + 1);
      InsertKeepsInv(st, it);
    }
  }

  /** A read, hit or miss, keeps the cache coherent. */
  lemma RetrievePreservesInv(st: ItemsState, id: int)
    requires Inv(st)
    ensures Inv(Retrieve(st, id).0)
  {
    var st' := Retrieve(st, id).0;
    var key := CacheKey(id);
    if key !in st.cache && id in st.store {
      forall k | k in st'.cache
        ensures EntryCoherent(st', k)
      {
        if k != key {
          assert EntryCoherent(st, k);
        }
      }
    }
  }

  /** An update, successful or refused, keeps names unique and the cache coherent. */
  lemma UpdatePreservesInv(st: ItemsState, id: int, f: Fields, partial: bool)
    requires Inv(st)
    ensures Inv(Update(st, id, f, partial).0)
  {
    var (st', r) := Update(st, id, f, partial);
    if id in st.store && FieldsValid(f, partial) {
      forall k | k in st'.cache
        ensures EntryCoherent(st', k)
      {
        assert EntryCoherent(st, k);
        assert KeyId(k).value != id;
      }
      if r.status == HttpOk {
        var it := Merge(st.store[id], f);
        assert !NameTakenByOther(st.store, it.name, id);
        WriteKeepsNamesUnique(st.store, id, it);
      }
    }
  }

  /** A delete keeps the cache coherent: the only entry naming the removed id is the one deleted. */
  lemma DestroyPreservesInv(st: ItemsState, id: int)
    requires Inv(st)
    ensures Inv(Destroy(st, id).0)
  {
    var st' := Destroy(st, id).0;
    if id in st.store {
      forall k | k in st'.cache
        ensures EntryCoherent(st', k)
      {
        assert EntryCoherent(st, k);
        assert KeyId(k).value != id;
      }
    }
  }
}

=== FILE: models.dfy ===
/**
 The `Item` record of inventory/models.py, the request payload a client sends
 to create or update one, and the JSON shape an item is serialised to.
 */
module Models {
  import opened Options

  /** `name = CharField(max_length=255, unique=True)`. */
  const MaxNameLength: nat := 255

  /** `quantity = PositiveIntegerField(default=0)`. */
  const DefaultQuantity: int := 0

  /** One row of the item table, without its id (the store keys rows by id). */
  datatype Item = Item(name: string, description: Option<string>, quantity: int)

  /** A name is required (not blank) and at most 255 characters. */
  predicate NameValid(name: string) {
    1 <= |name| <= MaxNameLength
  }

  /** A quantity is a non-negative integer. */
  predicate QuantityValid(q: int) {
    0 <= q
  }

  /** The field constraints of the model; the description may be null or any text, empty included. */
  predicate ItemValid(it: Item) {
    NameValid(it.name) && QuantityValid(it.quantity)
  }

  /** `Item.__str__`: an item prints as its name. */
  function Str(it: Item): (r: string)
    ensures ItemValid(it) ==> 1 <= |r| <= MaxNameLength
  {
    it.name
  }

  /**
   A request payload. Each field may be left out (`None`); a supplied
   description may itself be null (`Some(None)`).
   */
  datatype Fields = Fields(name: Option<string>, description: Option<Option<string>>, quantity: Option<int>)

  /**
   Payload validation against the model's field constraints. A full write
   (create, PUT) must supply a name; a partial write (PATCH) may omit any field.
   Every supplied field must satisfy its constraint.
   */
  predicate FieldsValid(f: Fields, partial: bool) {
    && (partial || f.name.Some?)
    && (f.name.Some? ==> NameValid(f.name.value))
    && (f.quantity.Some? ==> QuantityValid(f.quantity.value))
  }

  /** The row a valid full payload creates: omitted fields take the model's defaults. */
  function Build(f: Fields): (it: Item)
    requires FieldsValid(f, false)
    ensures ItemValid(it)
    ensures it.name == f.name.value
    ensures f.quantity.None? ==> it.quantity == DefaultQuantity
    ensures f.quantity.Some? ==> it.quantity == f.quantity.value
    ensures f.description.None? ==> it.description == None
    ensures f.description.Some? ==> it.description == f.description.value
  {
    Item(f.name.value, f.description.GetOr(None), f.quantity.GetOr(DefaultQuantity))
  }

  /** An existing row after a valid write: supplied fields replace, omitted fields are kept. */
  function Merge(it: Item, f: Fields): (r: Item)
    requires FieldsValid(f, true)
    ensures ItemValid(it) ==> ItemValid(r)
    ensures r.name == (if f.name.Some? then f.name.value else it.name)
    ensures r.description == (if f.description.Some? then f.description.value else it.description)
    ensures r.quantity == (if f.quantity.Some? then f.quantity.value else it.quantity)
  {
    Item(f.name.GetOr(it.name), f.description.GetOr(it.description), f.quantity.GetOr(it.quantity))
  }

  /** The JSON an item serialises to: `{"id", "name", "description", "quantity"}`. */
  datatype Serialized = Serialized(id: int, name: string, description: Option<string>, quantity: int)

  /** `ItemSerializer(item).data`: the payload carries the id and every field of the row. */
  function Serialize(id: int, it: Item): (r: Serialized)
    ensures r.id == id
    ensures r.name == Str(it)
    ensures r.description == it.description && r.quantity == it.quantity
  {
    Serialized(id, it.name, it.description, it.quantity)
  }

  /** Serialisation loses nothing: a payload determines the id and the row it came from. */
  lemma SerializeInjective(a: int, i: Item, b: int, j: Item)
    requires Serialize(a, i) == Serialize(b, j)
    ensures a == b && i == j
  {
  }

  /**
   Validation agrees with the model's constraints: a payload passes exactly
   when it names the item where a name is required and the row it would leave
   behind (supplied fields over the current ones) is a valid row.
   */
  lemma ValidationMatchesModel(f: Fields, partial: bool, it: Item)
    requires ItemValid(it)
    ensures FieldsValid(f, partial) <==>
              && (partial || f.name.Some?)
              && ItemValid(Item(f.name.GetOr(it.name), f.description.GetOr(it.description), f.quantity.GetOr(it.quantity)))
  {
  }
}

=== FILE: options.dfy ===
/** Optional values: the model's stand-in for Python's `None`. */
module Options {

  datatype Option<+T> = None | Some(value: T) {

    /** The carried value, or `default` when there is none. */
    function GetOr(default: T): T {
      match this
      case Some(v) => v
      case None => default
    }
  }
}

=== FILE: raw_lookup.dfy ===
/**
 The cache key `retrieve` builds from the id as it appears in the URL. The
 route accepts any path segment without `/` or `.`, and the store lookup
 coerces it with `int(...)`, so `07` and `7` name the same row but different
 cache keys. `update` and `destroy` invalidate the key built from the row's
 own id, so an entry cached under a padded id is never invalidated.
 */
module RawLookup {
  import opened Options
  import opened Decimal
  import opened Models
  import opened Responses
  import opened Items

  /** `retrieve` as written: the cache key is `item_` followed by the path segment verbatim. */
  function RetrieveAsWritten(st: ItemsState, raw: string): (r: (ItemsState, Response))
    ensures r.0.store == st.store && r.0.nextId == st.nextId
    ensures KeyPrefix + raw in st.cache ==> r == (st, Response(HttpOk, ItemData(st.cache[KeyPrefix + raw])))
    ensures KeyPrefix + raw !in st.cache && Parse(raw).None? ==> r == (st, ServerError)
    ensures KeyPrefix + raw !in st.cache && Parse(raw).Some? && Parse(raw).value !in st.store ==> r == (st, NotFound)
    ensures KeyPrefix + raw !in st.cache && Parse(raw).Some? && Parse(raw).value in st.store ==>
              var id := Parse(raw).value;
              && r.0.cache == st.cache[KeyPrefix + raw := Serialize(id, st.store[id])]
              && r.1 == Response(HttpOk, ItemData(Serialize(id, st.store[id])))
  {
    var key := KeyPrefix + raw;
    if key in st.cache then (st, Response(HttpOk, ItemData(st.cache[key])))
    else match Parse(raw)
      case None => (st, ServerError)
      case Some(id) =>
        if id !in st.store then (st, NotFound)
        else
          var data := Serialize(id, st.store[id]);
          (st.(cache := st.cache[key := data]), Response(HttpOk, ItemData(data)))
  }

  /** `retrieve` keyed by the looked-up id, so that every path naming a row shares that row's key. */
  function RetrieveByPath(st: ItemsState, raw: string): (r: (ItemsState, Response))
    ensures Parse(raw).None? ==> r == (st, ServerError)
    ensures Parse(raw).Some? ==> r == Retrieve(st, Parse(raw).value)
  {
    match Parse(raw)
    case None => (st, ServerError)
    case Some(id) => Retrieve(st, id)
  }

  /** On the canonical spelling of an id the two agree: the correction changes only padded or signed paths. */
  lemma CanonicalPathUnchanged(st: ItemsState, id: int)
    ensures RetrieveAsWritten(st, Render(id)) == RetrieveByPath(st, Render(id))
  {
    ParseRender(id);
    assert CacheKey(id) == KeyPrefix + Render(id);
  }

  /** Reads by path keep the cache coherent and return the store's current row. */
  lemma RetrieveByPathAgreesWithStore(st: ItemsState, raw: string)
    requires Inv(st)
    ensures Inv(RetrieveByPath(st, raw).0)
    ensures Parse(raw).Some? && Parse(raw).value in st.store ==>
              RetrieveByPath(st, raw).1 == Response(HttpOk, ItemData(Serialize(Parse(raw).value, st.store[Parse(raw).value])))
  {
    if Parse(raw).Some? {
      var id := Parse(raw).value;
      RetrievePreservesInv(st, id);
      if CacheKey(id) in st.cache {
        CachedItemsMatchStore(st, id);
      }
    }
  }

  const Widget: Item := Item("Widget", None, 0)

  /** One row, id 7, nothing cached. */
  const Start: ItemsState := ItemsState(map[7 := Widget], map[], 8)

  /**
   GET `/api/items/07/`, then PATCH item 7 to quantity 5, then GET
   `/api/items/07/` again: the second read is served the quantity-0 payload
   cached under `item_07`, which the update never invalidated.
   */
  lemma PaddedIdServesStaleItem()
    ensures Inv(Start)
    ensures var st1 := RetrieveAsWritten(Start, "07").0;
            var (st2, upd) := Update(st1, 7, Fields(None, None, Some(5)), true);
            var (st3, read) := RetrieveAsWritten(st2, "07");
            && upd.status == HttpOk
            && st2.store[7].quantity == 5
            && read == Response(HttpOk, ItemData(Serialize(7, Widget)))
            && read.body.data.quantity == 0
            && !Coherent(st2)
  {
    assert Parse("07") == Some(7) by {
      assert AllDigits("07");
      assert DigitsValue("07") == 7 by {
        assert "07"[..1] == "0";
        assert "0"[..0] == "";
      }
    }
    assert CacheKey(7) == "item_7" by {
      assert Render(7) == "7";
    }
    assert KeyPrefix + "07" == "item_07";
    var st1 := RetrieveAsWritten(Start, "07").0;
    assert st1.cache == map["item_07" := Serialize(7, Widget)];
    var st2 := Update(st1, 7, Fields(None, None, Some(5)), true).0;
    assert "item_07" != "item_7";
    assert "item_07" in st2.cache;
    assert !EntryCoherent(st2, "item_07");
  }
}

=== FILE: responses.dfy ===
/** The part of an HTTP response the handlers decide: a status code and a body. */
module Responses {
  import opened Models

  const HttpOk: int := 200
  const HttpCreated: int := 201
  const HttpNoContent: int := 204
  const HttpBadRequest: int := 400
  const HttpNotFound: int := 404
  /** An exception that escapes a handler (a database integrity error, a bad cast). */
  const HttpServerError: int := 500

  const UserCreatedMessage: string := "User created successfully"
  const UsernameExistsMessage: string := "Username already exists"
  const ItemExistsMessage: string := "Item already exists"
  const ItemDeletedMessage: string := "item deleted"

  datatype Body =
    | Message(text: string)
    | Error(text: string)
    | ValidationErrors
    | NotFoundDetail
    | ItemData(data: Serialized)
    | ServerErrorPage

  datatype Response = Response(status: int, body: Body)

  const NotFound: Response := Response(HttpNotFound, NotFoundDetail)
  const Invalid: Response := Response(HttpBadRequest, ValidationErrors)
  const ServerError: Response := Response(HttpServerError, ServerErrorPage)

  /** A 4xx response: the client's request was refused. */
  predicate IsClientError(r: Response) {
    400 <= r.status < 500
  }
}

=== FILE: service.dfy ===
/**
 The whole service as a sequential state machine: one request at a time,
 each handled to completion before the next.
 */
module Service {
  import opened Options
  import opened Models
  import opened Responses
  import Identity
  import Items
  import ItemScenarios

  datatype Request =
    | RegisterRequest(username: Option<string>, password: Option<string>, email: Option<string>)
    | CreateRequest(fields: Fields)
    | RetrieveRequest(id: int)
    | UpdateRequest(id: int, fields: Fields, partial: bool)
    | DestroyRequest(id: int)

  datatype State = State(users: seq<Identity.User>, items: Items.ItemsState)

  /** Usernames unique, item names unique, every cache entry coherent with the store. */
  predicate SystemInv(st: State) {
    Identity.UsernamesUnique(st.users) && Items.Inv(st.items)
  }

  /** Dispatch one request to its handler; registration touches only users, item requests only items. */
  function Step(st: State, req: Request): (r: (State, Response))
    ensures req.RegisterRequest? ==> r.0.items == st.items
    ensures !req.RegisterRequest? ==> r.0.users == st.users
  {
    match req
    case RegisterRequest(u, p, e) =>
      var (users, resp) := Identity.Register(st.users, u, p, e);
      (st.(users := users), resp)
    case CreateRequest(f) =>
      var (items, resp) := Items.Create(st.items, f);
      (st.(items := items), resp)
    case RetrieveRequest(id) =>
      var (items, resp) := Items.Retrieve(st.items, id);
      (st.(items := items), resp)
    case UpdateRequest(id, f, partial) =>
      var (items, resp) := Items.Update(st.items, id, f, partial);
      (st.(items := items), resp)
    case DestroyRequest(id) =>
      var (items, resp) := Items.Destroy(st.items, id);
      (st.(items := items), resp)
  }

  /** Handle requests in order; the final state and one response per request. */
  function Run(st: State, reqs: seq<Request>): (r: (State, seq<Response>))
    ensures |r.1| == |reqs|
    decreases |reqs|
  {
    if |reqs| == 0 then (st, [])
    else
      var (st1, resp) := Step(st, reqs[0]);
      var (st2, resps) := Run(st1, reqs[1..]);
      (st2, [resp] + resps)
  }

  lemma StepPreservesInv(st: State, req: Request)
    requires SystemInv(st)
    ensures SystemInv(Step(st, req).0)
  {
    match req
    case RegisterRequest(u, p, e) => Identity.RegisterKeepsUsernamesUnique(st.users, u, p, e);
    case CreateRequest(f) => Items.CreatePreservesInv(st.items, f);
    case RetrieveRequest(id) => Items.RetrievePreservesInv(st.items, id);
    case UpdateRequest(id, f, partial) => Items.UpdatePreservesInv(st.items, id, f, partial);
    case DestroyRequest(id) => Items.DestroyPreservesInv(st.items, id);
  }

  /** Across any sequential run, usernames and item names stay unique and the cache stays coherent. */
  lemma {:induction false} RunPreservesInv(st: State, reqs: seq<Request>)
    requires SystemInv(st)
    ensures SystemInv(Run(st, reqs).0)
    decreases |reqs|
  {
    if |reqs| > 0 {
      StepPreservesInv(st, reqs[0]);
      RunPreservesInv(Step(st, reqs[0]).0, reqs[1..]);
    }
  }

  /** After any run, reading an id returns the store's current row, or 404 if there is none. */
  lemma ReadAfterRunMatchesStore(st: State, reqs: seq<Request>, id: int)
    requires SystemInv(st)
    ensures var s := Run(st, reqs).0;
            && (id in s.items.store ==>
                  Step(s, RetrieveRequest(id)).1 == Response(HttpOk, ItemData(Serialize(id, s.items.store[id]))))
            && (id !in s.items.store ==> Step(s, RetrieveRequest(id)) == (s, NotFound))
  {
    RunPreservesInv(st, reqs);
    ItemScenarios.RetrieveAgreesWithStore(Run(st, reqs).0.items, id);
  }

  /** Every refused request (400 or 404) leaves users, items and cache exactly as they were. */
  lemma ClientErrorLeavesStateUnchanged(st: State, req: Request)
    requires IsClientError(Step(st, req).1)
    ensures Step(st, req).0 == st
  {
  }

  /**
   A server error (a rename onto a taken name, a missing username) changes no
   user and no row; at most the item's own cache entry has been dropped.
   */
  lemma ServerErrorKeepsRows(st: State, req: Request)
    requires Step(st, req).1.status == HttpServerError
    ensures var st1 := Step(st, req).0;
            && st1.users == st.users
            && st1.items.store == st.items.store
            && st1.items.nextId == st.items.nextId
            && st1.items.cache.Keys <= st.items.cache.Keys
            && forall k :: k in st1.items.cache ==> st1.items.cache[k] == st.items.cache[k]
  {
  }
}
